=== FILE: README.md ===
# Two-layer network: parameter layout and shape bookkeeping

This project models `forward_backward_prop` from `assignment1/q2_neural.py`. That function runs forward and backward propagation for a two-layer sigmoid/softmax network. The model covers:

- How the flat parameter vector is laid out. `W1` (Dx×H), `b1` (1×H), `W2` (H×Dy) and `b2` (1×Dy) are stored row-major, one after another.
- Unpacking that vector at a running offset and reshaping each slice.
- The shapes of every forward and backward intermediate.
- Packing the gradient blocks back into one vector.
- The parameter count and the one-hot label construction in `sanity_check`.

Matrices are `seq<seq<real>>` with an `IsShape(m, r, c)` predicate. The imported activation functions are not modelled; they are carried as parameters in a `Primitives` record:

- `sigmoid`, `sigmoid_grad` and `np.log` are arbitrary `real -> real` functions, applied entry by entry.
- `softmax` is an arbitrary function that gives entry `k` of a row's softmax.

So every shape fact holds whatever those functions compute.

The model has four modules:

- `Matrices`: the numpy operations the code uses. These are row-major `Reshape` and `Flatten`, `Transpose`, `MatMul`, bias-row broadcasting (`AddRow`), elementwise `Sub` and `Hadamard`, and `ColSum` (`sum(0).reshape(1, c)`).
- `Layout`: the dimensions, the offset table of the four blocks, `Unpack` and `Pack`, and the error cases.
- `Network`: the batch computation, written line for line from the source. Beside it is a reference model of one training example, written with the per-coordinate textbook formulas. The batch code is proved to compute, row by row, what the reference computes for that row. Its cost and gradient are proved to be the sum, not the mean, of the per-example costs and gradients. These sum-over-examples results depend on softmax being row-wise: row i of its output depends on row i of its input alone, which the `Primitives` record builds in.
- `Sanity`: the fixed configuration of `sanity_check`. The random draws become arbitrary parameters.

Error behaviour follows the code:

- A vector shorter than the layout fails at the `reshape` of the first block whose slice runs past its end. Python slicing stops at the end of the vector, so the slice comes out short.
- A vector longer than the layout unpacks without complaint. The whole computation runs, and the call then fails at the final `params.shape == grad.shape` assertion.
- An `X` without `Dx` columns fails in the first matrix product.
- `labels` of shape M×Dy are required by the model. Every other shape fails with a broadcast error, which is where numpy fails for shapes it cannot broadcast against M×Dy (line 45). numpy accepts some other shapes; see "## Left out".

## Model

| member | source | states |
|---|---|---|
| Layout.Offsets | assignment1/q2_neural.py:30-39 | the offset starts at 0 and advances by Dx*H, then H, then H*Dy; each block starts where the previous one ends, and the last slice ends at Dx*H + H + H*Dy + Dy |
| Layout.BlockAt | assignment1/q2_neural.py:30-39 | every position below the layout size falls inside some block's slice (no gaps) |
| Layout.BlocksDisjoint | assignment1/q2_neural.py:30-39 | no position falls inside two blocks' slices (no overlaps) |
| Layout.Slice | assignment1/q2_neural.py:33-39 | Python's `params[lo:hi]`: the real slice when `hi` is in range; otherwise only the entries from `lo` that exist, so the result is shorter than `hi - lo` unless the range is empty; every entry k is `params[lo + k]` |
| Layout.UnpackBlock | assignment1/q2_neural.py:33-39 | one slice-and-reshape step succeeds exactly when the block's slice fits in `params` (or the block is empty), fails with that block's reshape error otherwise, and yields the reshape of exactly that slice |
| Layout.Unpack | assignment1/q2_neural.py:29-39 | unpacking succeeds exactly when `params` has at least the layout size; on failure the error names the first block whose slice runs past the end; on success every block has its declared shape and is the reshape of its own slice |
| Layout.UnpackEntry | assignment1/q2_neural.py:33-39 | entry (i, j) of an unpacked block is the parameter at offset + i*cols + j, inside that block's slice (row-major filling) |
| Matrices.Reshape | assignment1/q2_neural.py:33-39 | reshaping r*c entries gives an r×c matrix |
| Matrices.ReshapeEntries | assignment1/q2_neural.py:33-39 | reshape fills row-major: entry (i, j) is element i*c + j |
| Matrices.FlattenEntry | assignment1/q2_neural.py:67-68 | flattening an r×c matrix gives r*c entries, with entry (i, j) at position i*c + j |
| Matrices.FlattenLength | assignment1/q2_neural.py:67-68 | `flatten()` of an r×c matrix has r*c entries |
| Matrices.FlattenReshape | assignment1/q2_neural.py:33-39 | flattening a reshaped vector gives the vector back |
| Matrices.ReshapeFlatten | assignment1/q2_neural.py:67-68 | reshaping a flattened r×c matrix to r×c gives the matrix back |
| Layout.Pack | assignment1/q2_neural.py:67-68 | the concatenation of the four flattened gradient blocks has the layout size Dx*H + H + H*Dy + Dy whenever the blocks have their parameters' shapes |
| Layout.PackLayout | assignment1/q2_neural.py:67-68 | a well-shaped set of blocks packs to exactly the layout size, and each block's flattening sits exactly in that block's slice |
| Layout.PackUnpack | assignment1/q2_neural.py:33-39 | packing the unpacked blocks reproduces the first layout-size parameters, so it reproduces `params` exactly when the length is right |
| Layout.UnpackPack | assignment1/q2_neural.py:67-68 | unpacking a packed, well-shaped set of blocks returns the same blocks |
| Matrices.MatMul | assignment1/q2_neural.py:43 | an n×k times k×p product is n×p, and entry (i, j) is row i of the left factor dotted with column j of the right |
| Matrices.AddRow | assignment1/q2_neural.py:43-44 | adding a bias row broadcasts it: every row of the result is that row of the input plus the bias |
| Matrices.Transpose | assignment1/q2_neural.py:54 | the transpose of an r×c matrix is c×r, with entry (j, i) equal to entry (i, j) of the input |
| Matrices.TransposeTwice | assignment1/q2_neural.py:54 | transposing twice gives the matrix back |
| Matrices.RowTotal | assignment1/q2_neural.py:55 | folding the rows together entry by entry gives, in entry j, the sum of column j |
| Matrices.ColSum | assignment1/q2_neural.py:55 | `sum(0).reshape(1, c)` is 1×c, with entry j the sum over all rows of column j |
| Matrices.MapEntries | assignment1/q2_neural.py:43-56 | applying an imported elementwise function (sigmoid at line 43, np.log at line 45, sigmoid_grad at line 56) keeps the shape whatever the function computes |
| Network.Hidden | assignment1/q2_neural.py:43 | `hidden` is M×H; row i is the reference hidden layer of example i, with the same b1 added to every row |
| Network.Softmax | assignment1/q2_neural.py:44 | keeps the row count; row i is the softmax of row i alone (the imported softmax is taken to be row-wise) |
| Network.Logits | assignment1/q2_neural.py:44 | `logits` is M×Dy; row i is the reference prediction for example i |
| Matrices.Sub | assignment1/q2_neural.py:53 | `logits - labels` on two M×Dy matrices is M×Dy; the contract gives the shape only, and Network.DCost carries the entries (prediction minus label, row by row) |
| Matrices.Hadamard | assignment1/q2_neural.py:45 | numpy's `*` on two matrices of one shape (here and at line 56) keeps that shape; the contract gives the shape only, and Network.CostTerms and Network.DHidden carry the entries |
| Network.CostTerms | assignment1/q2_neural.py:45 | `labels * np.log(logits)` has one row per example, and row i is label row i times log of example i's reference prediction, entry by entry |
| Matrices.TotalByColumns | assignment1/q2_neural.py:45 | `np.sum` over all entries (Matrices.Total, which has no contract of its own) equals the sum of the column sums `m.sum(0)`, so, over the reals, the order of summation does not matter |
| Network.DCost | assignment1/q2_neural.py:53 | `dcost` is M×Dy; row i is the prediction of example i minus its label row |
| Network.TimesTranspose | assignment1/q2_neural.py:56 | a row times W2ᵀ has, at entry j, the row dotted with row j of W2 |
| Network.DHidden | assignment1/q2_neural.py:56 | `dH` is M×H; entry (i, j) is (dcost row i · W2 row j) times sigmoid_grad of hidden (i, j) |
| Network.Gradient | assignment1/q2_neural.py:54-64 | every gradient block has its parameter's shape; gradb1 and gradb2 are column sums of dH and dcost over all M rows; gradW1 and gradW2 sum the products of an input column with a delta column over the batch |
| Matrices.ProductStep | assignment1/q2_neural.py:54 | uᵀv over a batch is the first rows' outer product plus uᵀv over the other rows |
| Matrices.ColSumStep | assignment1/q2_neural.py:55 | a column sum over a batch is the first row plus the column sum of the other rows |
| Network.BatchTail | assignment1/q2_neural.py:43-56 | dropping the first example drops exactly the first row of hidden, dcost, dH and the cost terms |
| Network.GradientStep | assignment1/q2_neural.py:54-58 | a batch's gradient is the first example's gradient plus the gradient of the rest |
| Network.GradientOfEmptyBatch | assignment1/q2_neural.py:54-58 | a batch with no rows has an all-zero gradient of the right shapes |
| Network.GradientIsSumOfExamples | assignment1/q2_neural.py:41-58 | the batch gradient equals the sum over the rows of the per-example gradients (a sum, not a mean) |
| Network.CostTermsStep | assignment1/q2_neural.py:45 | the entries of `labels * np.log(logits)` total, negated, the first example's cross-entropy plus the negated total of the rest |
| Network.CostTermsSum | assignment1/q2_neural.py:41-45 | minus the total of all entries of `labels * np.log(logits)` equals the sum over the rows of the per-example cross-entropy |
| Network.Cost | assignment1/q2_neural.py:41-45 | `cost` is the sum, not the mean, over the rows of the per-example cross-entropy −Σ_k y[k]·log(ŷ[k]) |
| Network.SingleExampleBatch | assignment1/q2_neural.py:43-58 | a batch of one row gets exactly the per-example cost and gradient, so M = 1 is not a special case |
| Network.ExampleCostOneHot | assignment1/q2_neural.py:45 | with a one-hot label, an example's cost is minus the log of the predicted probability of its class |
| Network.CostOfOneHotLabels | assignment1/q2_neural.py:45 | with one-hot label rows, the batch cost is the negative log-likelihood of the labelled classes |
| Network.ForwardBackward | assignment1/q2_neural.py:11-71 | the call succeeds exactly when `params` has the layout size and X and labels have M×Dx and M×Dy shapes; each other case fails with the error the code raises first; on success the gradient has the length of `params` and unpacks, block for block, to the shape-checked gradient, and the cost is the cross-entropy |
| Network.ForwardBackwardSumsExamples | assignment1/q2_neural.py:41-71 | a successful call returns the sum of the per-example costs, and a gradient vector that unpacks to the sum of the per-example gradients |
| Sanity.ParamCount | assignment1/q2_neural.py:88-89 | the sanity check's count (Dx+1)*H + (H+1)*Dy equals the layout size Dx*H + H + H*Dy + Dy |
| Sanity.MakeLabels | assignment1/q2_neural.py:84-86 | zero-filling an N×Dy matrix and setting entry (i, class_i) to 1 in each row gives the one-hot label rows of the drawn classes |
| Sanity.SanityCheck | assignment1/q2_neural.py:81-92 | with 20 examples and dimensions [10, 5, 10], the parameter vector has 115 entries, the call succeeds and returns a 115-entry gradient, and the cost is the negative log-likelihood of the drawn classes |

## Left out

- The values of `sigmoid`, `sigmoid_grad`, `softmax` and `np.log` are not modelled. They come from other modules of the assignment and are transcendental. Here they are arbitrary functions, applied entry by entry or row by row.
- Floating-point rounding is not modelled. Values are carried as `real`, and only shapes and the order of summation matter to the proofs.
- Row-stochasticity of `logits` and non-negativity of `cost` are left out. Both depend on what softmax computes.
- The finite-difference gradient check (`gradcheck_naive`) is left out. It is a calculus statement about floating point, made in another module.
- Random data generation, `print` and the empty `your_sanity_checks` are left out. The drawn data, classes and parameters are arbitrary parameters of `Sanity.SanityCheck`.
- Network.ForwardBackward: numpy broadcasting accepts `labels` of shape (Dy,), 1×1, 1×Dy or M×1, and the call then succeeds. The model reports `BroadcastMismatch` for every shape other than M×Dy.
- Network.ForwardBackward: with M = 1, `labels` of shape k×Dy or k×1 with k > 1 pass the cost at line 45 by broadcasting. They then fail at the product of line 54. The model reports `BroadcastMismatch` for them.
- `log` is a total function from reals to reals, so the infinities and NaN of floating point are not modelled. numpy's `np.log(0.0)` is −inf, and `0.0 * -inf` is NaN. So when a softmax entry of a non-labelled class underflows to 0, numpy's cost is NaN. Network.ExampleCostOneHot, Network.CostOfOneHotLabels and Sanity.SanityCheck state −log of the labelled class's probability, which assumes strictly positive softmax output.
- Network.ForwardBackward: an `X` with no rows is accepted whatever its column count, and so is a `labels` with no rows. An empty `seq` carries no column count. numpy would reject an `X` of shape (0, k) with k ≠ Dx in the first product (line 43), and `labels` of shape (0, k) with k ∉ {1, Dy} in the cost (line 45).
- The dimensions are natural numbers, and exactly three are used. Negative sizes, extra entries in `dimensions`, and a `params` array that is not one-dimensional are not modelled.

=== FILE: layout.dfy ===
/**
  The layout of the network's parameters in one flat vector: `W1` (Dx x H),
  `b1` (1 x H), `W2` (H x Dy) and `b2` (1 x Dy), each stored row-major, one
  after another.  Unpacking slices the vector at a running offset and
  reshapes each slice; packing flattens the four blocks and concatenates
  them in the same order.
*/
module Layout {
  import opened Matrices

  /** The `dimensions` tuple: input features, hidden units, output classes. */
  datatype Dims = Dims(dx: nat, h: nat, dy: nat)

  /** The four parameter blocks, in the order they are stored. */
  datatype Block = W1 | B1 | W2 | B2

  /** Position of a block in the storage order. */
  function Index(b: Block): nat {
    match b
    case W1 => 0
    case B1 => 1
    case W2 => 2
    case B2 => 3
  }

  function Rows(d: Dims, b: Block): nat {
    match b
    case W1 => d.dx
    case B1 => 1
    case W2 => d.h
    case B2 => 1
  }

  function Cols(d: Dims, b: Block): nat {
    match b
    case W1 => d.h
    case B1 => d.h
    case W2 => d.dy
    case B2 => d.dy
  }

  function Size(d: Dims, b: Block): nat {
    Rows(d, b) * Cols(d, b)
  }

  /** The offset table: where the slice of block `b` begins in the flat vector. */
  function Start(d: Dims, b: Block): nat {
    match b
    case W1 => 0
    case B1 => Size(d, W1)
    case W2 => Size(d, W1) + Size(d, B1)
    case B2 => Size(d, W1) + Size(d, B1) + Size(d, W2)
  }

  function End(d: Dims, b: Block): nat {
    Start(d, b) + Size(d, b)
  }

  /** The number of parameters, `Dx*H + H + H*Dy + Dy`. */
  function LayoutSize(d: Dims): nat {
    d.dx * d.h + d.h + d.h * d.dy + d.dy
  }

  /**
    The running offset advances by `Dx*H`, then `H`, then `H*Dy`, and the
    last slice ends exactly at the layout size: blocks are contiguous.
  */
  lemma Offsets(d: Dims)
    ensures Start(d, W1) == 0
    ensures Start(d, B1) == d.dx * d.h
    ensures Start(d, W2) == d.dx * d.h + d.h
    ensures Start(d, B2) == d.dx * d.h + d.h + d.h * d.dy
    ensures End(d, B2) == LayoutSize(d)
    ensures forall b :: Index(b) < 3 ==> End(d, b) == Start(d, Next(b))
  {
  }

  /** The block stored after `b`. */
  function Next(b: Block): Block
    requires Index(b) < 3
  {
    match b
    case W1 => B1
    case B1 => W2
    case W2 => B2
  }

  /** Every block lies inside the layout, after the blocks stored before it. */
  lemma Ordered(d: Dims, a: Block, b: Block)
    ensures End(d, b) <= LayoutSize(d)
    ensures Index(a) < Index(b) ==> End(d, a) <= Start(d, b)
  {
    Offsets(d);
  }

  /** The block whose slice holds position `k` of the flat vector. */
  function BlockAt(d: Dims, k: nat): (b: Block)
    requires k < LayoutSize(d)
    ensures Start(d, b) <= k < End(d, b)
  {
    if k < End(d, W1) then W1
    else if k < End(d, B1) then B1
    else if k < End(d, W2) then W2
    else B2
  }

  /** No position belongs to two blocks: together with `BlockAt`, the slices tile the layout. */
  lemma BlocksDisjoint(d: Dims, a: Block, b: Block, k: nat)
    requires Start(d, a) <= k < End(d, a)
    requires Start(d, b) <= k < End(d, b)
    ensures a == b
  {
    if Index(a) < Index(b) {
      Ordered(d, a, b);
    } else if Index(b) < Index(a) {
      Ordered(d, b, a);
    }
  }

  // ---------------------------------------------------------------------
  // Errors

  /** Why `forward_backward_prop` raises. */
  datatype Error =
    | ReshapeMismatch(block: Block)  // a slice too short for its `reshape`
    | MatmulMismatch                 // `X` does not have `Dx` columns
    | BroadcastMismatch              // `labels` is not `M` x `Dy`
    | GradientShapeMismatch          // `params.shape != grad.shape` at the end

  datatype Result<+T> = Success(value: T) | Failure(error: Error) {
    predicate IsFailure() {
      Failure?
    }

    function PropagateFailure<U>(): Result<U>
      requires Failure?
    {
      Failure(error)
    }

    function Extract(): T
      requires Success?
    {
      value
    }
  }

  // ---------------------------------------------------------------------
  // Unpacking and packing

  /** The four parameter (or gradient) blocks. */
  datatype Params = Params(w1: Matrix, b1: Matrix, w2: Matrix, b2: Matrix)

  function Get(p: Params, b: Block): Matrix {
    match b
    case W1 => p.w1
    case B1 => p.b1
    case W2 => p.w2
    case B2 => p.b2
  }

  /** Every block has its declared shape. */
  predicate WellShaped(p: Params, d: Dims) {
    && IsShape(p.w1, d.dx, d.h)
    && IsShape(p.b1, 1, d.h)
    && IsShape(p.w2, d.h, d.dy)
    && IsShape(p.b2, 1, d.dy)
  }

  lemma WellShapedBlock(p: Params, d: Dims, b: Block)
    requires WellShaped(p, d)
    ensures IsShape(Get(p, b), Rows(d, b), Cols(d, b))
  {
  }

  /** Python's `v[lo:hi]`, which stops at the end of `v` instead of failing. */
  function Slice(v: Vector, lo: nat, hi: nat): (s: Vector)
    requires lo <= hi
    ensures hi <= |v| ==> s == v[lo..hi]
    ensures |v| < hi ==> |s| < hi - lo || lo == hi
    ensures lo <= |v| < hi ==> |s| == |v| - lo
    ensures forall k :: 0 <= k < |s| ==> lo + k < |v| && s[k] == v[lo + k]
  {
    if hi <= |v| then v[lo..hi]
    else if lo <= |v| then v[lo..]
    else []
  }

  /** One `params[ofs:ofs + size].reshape(rows, cols)` step; numpy refuses a slice of the wrong size. */
  function UnpackBlock(params: Vector, d: Dims, b: Block): (r: Result<Matrix>)
    ensures r.Success? <==> End(d, b) <= |params| || Size(d, b) == 0
    ensures r.Failure? ==> r.error == ReshapeMismatch(b)
    ensures r.Success? && End(d, b) <= |params| ==>
      r.value == Reshape(params[Start(d, b)..End(d, b)], Rows(d, b), Cols(d, b))
  {
    var s := Slice(params, Start(d, b), End(d, b));
    if |s| != Rows(d, b) * Cols(d, b) then Failure(ReshapeMismatch(b))
    else Success(Reshape(s, Rows(d, b), Cols(d, b)))
  }

  /**
    Unpacks `W1`, `b1`, `W2`, `b2` in storage order.  It succeeds exactly when
    `params` holds at least the layout size; otherwise the first block whose
    slice runs past the end of `params` is the one that fails.  Each block is
    the row-major reshape of its own slice.
  */
  function Unpack(params: Vector, d: Dims): (r: Result<Params>)
    ensures r.Success? <==> LayoutSize(d) <= |params|
    ensures r.Failure? ==>
      && r.error.ReshapeMismatch?
      && |params| < End(d, r.error.block)
      && forall b :: Index(b) < Index(r.error.block) ==> End(d, b) <= |params|
    ensures r.Success? ==> WellShaped(r.value, d)
    ensures r.Success? ==> forall b ::
      && End(d, b) <= |params|
      && Get(r.value, b) == Reshape(params[Start(d, b)..End(d, b)], Rows(d, b), Cols(d, b))
  {
    Offsets(d);
    var w1 :- UnpackBlock(params, d, W1);
    var b1 :- UnpackBlock(params, d, B1);
    var w2 :- UnpackBlock(params, d, W2);
    var b2 :- UnpackBlock(params, d, B2);
    Success(Params(w1, b1, w2, b2))
  }

  /** Entry `(i, j)` of an unpacked block is the parameter at `i * cols + j` within the block's slice. */
  lemma UnpackEntry(params: Vector, d: Dims, p: Params, b: Block, i: nat, j: nat)
    requires Unpack(params, d) == Success(p)
    requires i < Rows(d, b) && j < Cols(d, b)
    ensures Start(d, b) + RowMajor(i, Cols(d, b), j) < End(d, b) <= |params|
    ensures Get(p, b)[i][j] == params[Start(d, b) + RowMajor(i, Cols(d, b), j)]
  {
    assert End(d, b) <= |params|;
    assert Get(p, b) == Reshape(params[Start(d, b)..End(d, b)], Rows(d, b), Cols(d, b));
    SliceEntry(params, d, b, i, j);
  }

  lemma SliceEntry(params: Vector, d: Dims, b: Block, i: nat, j: nat)
    requires End(d, b) <= |params|
    requires i < Rows(d, b) && j < Cols(d, b)
    ensures Start(d, b) + RowMajor(i, Cols(d, b), j) < End(d, b)
    ensures Reshape(params[Start(d, b)..End(d, b)], Rows(d, b), Cols(d, b))[i][j]
      == params[Start(d, b) + RowMajor(i, Cols(d, b), j)]
  {
    var r, c := Rows(d, b), Cols(d, b);
    var slice := params[Start(d, b)..End(d, b)];
    IndexBound(i, j, r, c);
    ReshapeEntry(slice, r, c, i, j);
  }

  /** The gradient stack: each block flattened row-major, concatenated in storage order. */
  function Pack(g: Params): (v: Vector)
    ensures forall d :: WellShaped(g, d) ==> |v| == LayoutSize(d)
  {
    var v := Flatten(g.w1) + Flatten(g.b1) + Flatten(g.w2) + Flatten(g.b2);
    assert forall d :: WellShaped(g, d) ==> |v| == LayoutSize(d) by {
      forall d | WellShaped(g, d)
        ensures |v| == LayoutSize(d)
      {
        FlattenLength(g.w1, d.dx, d.h);
        FlattenLength(g.b1, 1, d.h);
        FlattenLength(g.w2, d.h, d.dy);
        FlattenLength(g.b2, 1, d.dy);
      }
    }
    v
  }

  /** A well-shaped stack has the layout size, and block `b` occupies exactly block `b`'s slice. */
  lemma PackLayout(g: Params, d: Dims)
    requires WellShaped(g, d)
    ensures |Pack(g)| == LayoutSize(d)
    ensures forall b :: End(d, b) <= |Pack(g)| && Pack(g)[Start(d, b)..End(d, b)] == Flatten(Get(g, b))
  {
    FlattenLength(g.w1, d.dx, d.h);
    FlattenLength(g.b1, 1, d.h);
    FlattenLength(g.w2, d.h, d.dy);
    FlattenLength(g.b2, 1, d.dy);
    Parts(Flatten(g.w1), Flatten(g.b1), Flatten(g.w2), Flatten(g.b2));
    assert Start(d, B1) == |Flatten(g.w1)|;
    assert Start(d, W2) == |Flatten(g.w1)| + |Flatten(g.b1)|;
    assert Start(d, B2) == |Flatten(g.w1)| + |Flatten(g.b1)| + |Flatten(g.w2)|;
    Offsets(d);
  }

  /** The four parts of a concatenation are its slices at the running offsets. */
  lemma Parts(a: Vector, b: Vector, c: Vector, e: Vector)
    ensures var v := a + b + c + e;
      && v[..|a|] == a
      && v[|a|..|a| + |b|] == b
      && v[|a| + |b|..|a| + |b| + |c|] == c
      && v[|a| + |b| + |c|..|v|] == e
  {
  }

  /** Unpacking a packed, well-shaped set of blocks gives the blocks back. */
  lemma UnpackPack(g: Params, d: Dims)
    requires WellShaped(g, d)
    ensures Unpack(Pack(g), d) == Success(g)
  {
    PackLayout(g, d);
    var r := Unpack(Pack(g), d);
    forall b
      ensures Get(r.value, b) == Get(g, b)
    {
      WellShapedBlock(g, d, b);
      ReshapeFlatten(Get(g, b), Rows(d, b), Cols(d, b));
    }
    assert r.value.w1 == Get(r.value, W1) == g.w1;
    assert r.value.b1 == Get(r.value, B1) == g.b1;
    assert r.value.w2 == Get(r.value, W2) == g.w2;
    assert r.value.b2 == Get(r.value, B2) == g.b2;
  }

  /**
    Packing the unpacked blocks reproduces the first `LayoutSize` parameters
    (all of them when `params` has exactly the layout size): the slices
    leave no gap and do not overlap.
  */
  lemma PackUnpack(params: Vector, d: Dims)
    requires LayoutSize(d) <= |params|
    ensures Unpack(params, d).Success?
    ensures Pack(Unpack(params, d).value) == params[..LayoutSize(d)]
  {
    Offsets(d);
    var p := Unpack(params, d).value;
    forall b
      ensures Flatten(Get(p, b)) == params[Start(d, b)..End(d, b)]
    {
      FlattenReshape(params[Start(d, b)..End(d, b)], Rows(d, b), Cols(d, b));
    }
    var n := LayoutSize(d);
    calc {
      Pack(p);
      Flatten(p.w1) + Flatten(p.b1) + Flatten(p.w2) + Flatten(p.b2);
      { assert Flatten(p.w1) == Flatten(Get(p, W1)); assert Flatten(p.b1) == Flatten(Get(p, B1));
        assert Flatten(p.w2) == Flatten(Get(p, W2)); assert Flatten(p.b2) == Flatten(Get(p, B2)); }
      params[Start(d, W1)..End(d, W1)] + params[Start(d, B1)..End(d, B1)]
        + params[Start(d, W2)..End(d, W2)] + params[Start(d, B2)..End(d, B2)];
      { Slices(params, End(d, W1), End(d, B1), End(d, W2), n); }
      params[..n];
    }
  }

  lemma Slices(v: Vector, b: nat, c: nat, e: nat, n: nat)
    requires b <= c <= e <= n <= |v|
    ensures v[..b] + v[b..c] + v[c..e] + v[e..n] == v[..n]
  {
    var w := v[..n];
    assert w[..b] == v[..b] && w[b..c] == v[b..c] && w[c..e] == v[c..e] && w[e..] == v[e..n];
    assert w == w[..b] + w[b..c] + w[c..e] + w[e..];
  }
}

=== FILE: matrices.dfy ===
/**
  Dense real matrices as sequences of rows, with the numpy operations the
  two-layer network uses: row-major reshape and flatten, transpose, matrix
  product, column sums, elementwise arithmetic and bias-row broadcasting.
  Every matrix operation is defined row by row from a vector operation, so
  that row `i` of a result is visibly a function of row `i` of its inputs.
*/
module Matrices {

  type Vector = seq<real>
  type Matrix = seq<Vector>

  /** `m` has `r` rows of `c` entries each (numpy's `m.shape == (r, c)`). */
  predicate IsShape(m: Matrix, r: nat, c: nat) {
    |m| == r && forall i :: 0 <= i < r ==> |m[i]| == c
  }

  // ---------------------------------------------------------------------
  // Vectors

  function Sum(v: Vector): real {
    if |v| == 0 then 0.0 else v[0] + Sum(v[1..])
  }

  /** A vector that is zero everywhere except at `k` sums to its entry at `k`. */
  lemma {:induction false} SumSingle(v: Vector, k: nat)
    requires k < |v|
    requires forall j :: 0 <= j < |v| && j != k ==> v[j] == 0.0
    ensures Sum(v) == v[k]
  {
    if k == 0 {
      SumZero(v[1..]);
    } else {
      SumSingle(v[1..], k - 1);
    }
  }

  lemma {:induction false} SumZero(v: Vector)
    requires forall j :: 0 <= j < |v| ==> v[j] == 0.0
    ensures Sum(v) == 0.0
  {
    if |v| > 0 {
      SumZero(v[1..]);
    }
  }

  function Dot(u: Vector, v: Vector): real
    requires |u| == |v|
  {
    if |u| == 0 then 0.0 else u[0] * v[0] + Dot(u[1..], v[1..])
  }

  function VAdd(u: Vector, v: Vector): (w: Vector)
    requires |u| == |v|
    ensures |w| == |u|
  {
    seq(|u|, k requires 0 <= k < |u| => u[k] + v[k])
  }

  /** Summing an elementwise sum is summing each vector and adding. */
  lemma {:induction false} SumVAdd(u: Vector, v: Vector)
    requires |u| == |v|
    ensures Sum(VAdd(u, v)) == Sum(u) + Sum(v)
  {
    if |u| > 0 {
      assert VAdd(u, v)[1..] == VAdd(u[1..], v[1..]);
      SumVAdd(u[1..], v[1..]);
    }
  }

  function VSub(u: Vector, v: Vector): (w: Vector)
    requires |u| == |v|
    ensures |w| == |u|
  {
    seq(|u|, k requires 0 <= k < |u| => u[k] - v[k])
  }

  /** Elementwise (Hadamard) product of two vectors. */
  function VMul(u: Vector, v: Vector): (w: Vector)
    requires |u| == |v|
    ensures |w| == |u|
  {
    seq(|u|, k requires 0 <= k < |u| => u[k] * v[k])
  }

  function VMap(v: Vector, f: real -> real): (w: Vector)
    ensures |w| == |v|
  {
    seq(|v|, k requires 0 <= k < |v| => f(v[k]))
  }

  function Zeros(n: nat): (z: Vector)
    ensures |z| == n
  {
    seq(n, k => 0.0)
  }

  /** The `r`x`c` matrix of zeros (`np.zeros((r, c))`). */
  function ZeroMatrix(r: nat, c: nat): (z: Matrix)
    ensures IsShape(z, r, c)
  {
    seq(r, i => Zeros(c))
  }

  // ---------------------------------------------------------------------
  // Columns and transposition

  function Column(m: Matrix, j: nat): (col: Vector)
    requires forall i :: 0 <= i < |m| ==> j < |m[i]|
    ensures |col| == |m|
  {
    seq(|m|, i requires 0 <= i < |m| => m[i][j])
  }

  /** The first row's contribution splits off a sum over rows of products of two columns. */
  lemma DotColumnsStep(u: Matrix, v: Matrix, a: nat, b: nat)
    requires |u| == |v| > 0
    requires forall i :: 0 <= i < |u| ==> a < |u[i]| && b < |v[i]|
    ensures Dot(Column(u, a), Column(v, b)) == u[0][a] * v[0][b] + Dot(Column(u[1..], a), Column(v[1..], b))
  {
    assert Column(u, a)[1..] == Column(u[1..], a);
    assert Column(v, b)[1..] == Column(v[1..], b);
  }

  /** The first row's entry splits off a column sum. */
  lemma SumColumnStep(v: Matrix, b: nat)
    requires |v| > 0
    requires forall i :: 0 <= i < |v| ==> b < |v[i]|
    ensures Sum(Column(v, b)) == v[0][b] + Sum(Column(v[1..], b))
  {
    assert Column(v, b)[1..] == Column(v[1..], b);
  }

  /** Numpy's `m.transpose()` of an `r`x`c` matrix. */
  function Transpose(m: Matrix, r: nat, c: nat): (t: Matrix)
    requires IsShape(m, r, c)
    ensures IsShape(t, c, r)
    ensures forall j, i :: 0 <= j < c && 0 <= i < r ==> t[j][i] == m[i][j]
  {
    seq(c, j requires 0 <= j < c => Column(m, j))
  }

  /** Transposing twice gives back the matrix. */
  lemma TransposeTwice(m: Matrix, r: nat, c: nat)
    requires IsShape(m, r, c)
    ensures Transpose(Transpose(m, r, c), c, r) == m
  {
    var t := Transpose(Transpose(m, r, c), c, r);
    forall i | 0 <= i < r
      ensures t[i] == m[i]
    {
    }
  }

  /** Column `j` of the transpose is row `j` of the matrix. */
  lemma ColumnOfTranspose(m: Matrix, r: nat, c: nat, j: nat)
    requires IsShape(m, r, c) && j < r
    ensures Column(Transpose(m, r, c), j) == m[j]
  {
  }

  /** Two matrices of one shape that agree entry by entry are equal. */
  lemma Extensionality(a: Matrix, b: Matrix, r: nat, c: nat)
    requires IsShape(a, r, c) && IsShape(b, r, c)
    requires forall i, j :: 0 <= i < r && 0 <= j < c ==> a[i][j] == b[i][j]
    ensures a == b
  {
    forall i | 0 <= i < r
      ensures a[i] == b[i]
    {
    }
  }

  // ---------------------------------------------------------------------
  // Matrix product, broadcasting and elementwise operations

  /** The row vector `u` times the `|u|`x`p` matrix `b`. */
  function VecMat(u: Vector, b: Matrix, p: nat): (w: Vector)
    requires IsShape(b, |u|, p)
    ensures |w| == p
  {
    seq(p, j requires 0 <= j < p => Dot(u, Column(b, j)))
  }

  /** Numpy's `np.matmul(a, b)` of an `n`x`k` and a `k`x`p` matrix. */
  function MatMul(a: Matrix, b: Matrix, n: nat, k: nat, p: nat): (prod: Matrix)
    requires IsShape(a, n, k) && IsShape(b, k, p)
    ensures IsShape(prod, n, p)
    ensures forall i, j :: 0 <= i < n && 0 <= j < p ==> prod[i][j] == Dot(a[i], Column(b, j))
  {
    seq(n, i requires 0 <= i < n => VecMat(a[i], b, p))
  }

  /** Numpy's `m + row` for a single-row `row`: the row is added to every row of `m`. */
  function AddRow(m: Matrix, row: Vector): (s: Matrix)
    requires IsShape(m, |m|, |row|)
    ensures IsShape(s, |m|, |row|)
    ensures forall i :: 0 <= i < |m| ==> s[i] == VAdd(m[i], row)
  {
    seq(|m|, i requires 0 <= i < |m| => VAdd(m[i], row))
  }

  function Sub(a: Matrix, b: Matrix, r: nat, c: nat): (s: Matrix)
    requires IsShape(a, r, c) && IsShape(b, r, c)
    ensures IsShape(s, r, c)
  {
    seq(r, i requires 0 <= i < r => VSub(a[i], b[i]))
  }

  function Add(a: Matrix, b: Matrix, r: nat, c: nat): (s: Matrix)
    requires IsShape(a, r, c) && IsShape(b, r, c)
    ensures IsShape(s, r, c)
  {
    seq(r, i requires 0 <= i < r => VAdd(a[i], b[i]))
  }

  /** Numpy's `a * b` on two matrices of one shape. */
  function Hadamard(a: Matrix, b: Matrix, r: nat, c: nat): (s: Matrix)
    requires IsShape(a, r, c) && IsShape(b, r, c)
    ensures IsShape(s, r, c)
  {
    seq(r, i requires 0 <= i < r => VMul(a[i], b[i]))
  }

  /** `f` applied to every entry; keeps the shape whatever `f` is. */
  function MapEntries(m: Matrix, f: real -> real): (s: Matrix)
    ensures forall r: nat, c: nat :: IsShape(m, r, c) ==> IsShape(s, r, c)
  {
    seq(|m|, i requires 0 <= i < |m| => VMap(m[i], f))
  }

  /** Adding the zero matrix changes nothing. */
  lemma AddZero(m: Matrix, r: nat, c: nat)
    requires IsShape(m, r, c)
    ensures Add(m, ZeroMatrix(r, c), r, c) == m
  {
    var s := Add(m, ZeroMatrix(r, c), r, c);
    forall i, j | 0 <= i < r && 0 <= j < c
      ensures s[i][j] == m[i][j]
    {
    }
    Extensionality(s, m, r, c);
  }

  /** `a` outer `b`: entry `(i, j)` is `a[i] * b[j]`. */
  function Outer(a: Vector, b: Vector): (m: Matrix)
    ensures IsShape(m, |a|, |b|)
  {
    seq(|a|, i requires 0 <= i < |a| => seq(|b|, j requires 0 <= j < |b| => a[i] * b[j]))
  }

  /**
    `u^T v` over a batch of rows is the first rows' outer product plus
    `u^T v` over the remaining rows.
  */
  lemma ProductStep(u: Matrix, v: Matrix, r: nat, c: nat)
    requires |u| == |v| > 0 && IsShape(u, |u|, r) && IsShape(v, |v|, c)
    ensures MatMul(Transpose(u, |u|, r), v, r, |u|, c) ==
      Add(Outer(u[0], v[0]), MatMul(Transpose(u[1..], |u| - 1, r), v[1..], r, |u| - 1, c), r, c)
  {
    var g := MatMul(Transpose(u, |u|, r), v, r, |u|, c);
    var g' := MatMul(Transpose(u[1..], |u| - 1, r), v[1..], r, |u| - 1, c);
    var e := Outer(u[0], v[0]);
    var s := Add(e, g', r, c);
    forall a, b | 0 <= a < r && 0 <= b < c
      ensures g[a][b] == s[a][b]
    {
      DotColumnsStep(u, v, a, b);
      assert Transpose(u, |u|, r)[a] == Column(u, a);
      assert Transpose(u[1..], |u| - 1, r)[a] == Column(u[1..], a);
      assert s[a][b] == e[a][b] + g'[a][b];
    }
    Extensionality(g, s, r, c);
  }

  /** A column sum over a batch of rows is the first row plus the column sum of the rest. */
  lemma ColSumStep(v: Matrix, c: nat)
    requires |v| > 0 && IsShape(v, |v|, c)
    ensures ColSum(v, c) == Add([v[0]], ColSum(v[1..], c), 1, c)
  {
    var g := ColSum(v, c);
    var g' := ColSum(v[1..], c);
    var s := Add([v[0]], g', 1, c);
    forall a, b | 0 <= a < 1 && 0 <= b < c
      ensures g[a][b] == s[a][b]
    {
      SumColumnStep(v, b);
      assert s[0][b] == v[0][b] + g'[0][b];
    }
    Extensionality(g, s, 1, c);
  }

  /** The sum of every entry (numpy's `np.sum` with no axis). */
  function Total(m: Matrix): real {
    if |m| == 0 then 0.0 else Sum(m[0]) + Total(m[1..])
  }

  // ---------------------------------------------------------------------
  // Column sums

  /** The rows of `m` added together one after another, as numpy's `sum(0)` folds axis 0. */
  function RowTotal(m: Matrix, c: nat): (t: Vector)
    requires IsShape(m, |m|, c)
    ensures |t| == c
    ensures forall j :: 0 <= j < c ==> t[j] == Sum(Column(m, j))
  {
    if |m| == 0 then Zeros(c)
    else
      var rest := RowTotal(m[1..], c);
      assert forall j :: 0 <= j < c ==> Column(m, j)[1..] == Column(m[1..], j);
      VAdd(m[0], rest)
  }

  /** `np.sum(m)` adds the same entries as summing the column sums `m.sum(0)`. */
  lemma {:induction false} TotalByColumns(m: Matrix, c: nat)
    requires IsShape(m, |m|, c)
    ensures Total(m) == Sum(RowTotal(m, c))
    decreases |m|
  {
    if |m| == 0 {
      SumZero(Zeros(c));
    } else {
      TotalByColumns(m[1..], c);
      SumVAdd(m[0], RowTotal(m[1..], c));
    }
  }

  /** Numpy's `m.sum(0).reshape(1, c)`: entry `j` of the single row is column `j`'s sum. */
  function ColSum(m: Matrix, c: nat): (s: Matrix)
    requires IsShape(m, |m|, c)
    ensures IsShape(s, 1, c)
    ensures forall j :: 0 <= j < c ==> s[0][j] == Sum(Column(m, j))
  {
    [RowTotal(m, c)]
  }

  // ---------------------------------------------------------------------
  // Row-major reshape and flatten

  lemma MulStep(r: nat, c: nat)
    requires r > 0
    ensures r * c == (r - 1) * c + c
    ensures c <= r * c
  {
  }

  /** Where entry `(i, j)` of a matrix with `c` columns sits in its row-major flattening. */
  function RowMajor(i: nat, c: nat, j: nat): nat {
    i * c + j
  }

  /** Position `(i, j)` of an `r`x`c` matrix lies inside its `r * c` row-major entries. */
  lemma {:induction false} IndexBound(i: nat, j: nat, r: nat, c: nat)
    requires i < r && j < c
    ensures RowMajor(i, c, j) < r * c
  {
    MulStep(r, c);
    if i < r - 1 {
      IndexBound(i, j, r - 1, c);
    }
  }

  /** Numpy's `v.reshape(r, c)` on a vector of exactly `r * c` entries: `r` slices of `c`. */
  function Reshape(v: Vector, r: nat, c: nat): (m: Matrix)
    requires |v| == r * c
    ensures IsShape(m, r, c)
    decreases r
  {
    if r == 0 then []
    else
      MulStep(r, c);
      [v[..c]] + Reshape(v[c..], r - 1, c)
  }

  lemma {:induction false} ReshapeEntry(v: Vector, r: nat, c: nat, i: nat, j: nat)
    requires |v| == r * c
    requires i < r && j < c
    ensures RowMajor(i, c, j) < |v|
    ensures Reshape(v, r, c)[i][j] == v[RowMajor(i, c, j)]
    decreases i
  {
    IndexBound(i, j, r, c);
    MulStep(r, c);
    if i > 0 {
      ReshapeEntry(v[c..], r - 1, c, i - 1, j);
      MulStep(i, c);
    }
  }

  /** Reshaping fills row-major: entry `(i, j)` is taken from position `i * c + j`. */
  lemma ReshapeEntries(v: Vector, r: nat, c: nat)
    requires |v| == r * c
    ensures forall i, j :: 0 <= i < r && 0 <= j < c ==>
      RowMajor(i, c, j) < |v| && Reshape(v, r, c)[i][j] == v[RowMajor(i, c, j)]
  {
    forall i, j | 0 <= i < r && 0 <= j < c
      ensures RowMajor(i, c, j) < |v| && Reshape(v, r, c)[i][j] == v[RowMajor(i, c, j)]
    {
      ReshapeEntry(v, r, c, i, j);
    }
  }

  /** Numpy's `m.flatten()`: the rows, in order, one after another. */
  function Flatten(m: Matrix): (v: Vector)
  {
    if |m| == 0 then [] else m[0] + Flatten(m[1..])
  }

  lemma {:induction false} FlattenLength(m: Matrix, r: nat, c: nat)
    requires IsShape(m, r, c)
    ensures |Flatten(m)| == r * c
  {
    if r > 0 {
      FlattenLength(m[1..], r - 1, c);
      MulStep(r, c);
    }
  }

  lemma {:induction false} FlattenEntry(m: Matrix, r: nat, c: nat, i: nat, j: nat)
    requires IsShape(m, r, c)
    requires i < r && j < c
    ensures |Flatten(m)| == r * c && RowMajor(i, c, j) < r * c
    ensures Flatten(m)[RowMajor(i, c, j)] == m[i][j]
    decreases i
  {
    FlattenLength(m, r, c);
    IndexBound(i, j, r, c);
    if i > 0 {
      FlattenEntry(m[1..], r - 1, c, i - 1, j);
      MulStep(i, c);
    }
  }

  /** Reshaping and then flattening gives back the vector. */
  lemma {:induction false} FlattenReshape(v: Vector, r: nat, c: nat)
    requires |v| == r * c
    ensures Flatten(Reshape(v, r, c)) == v
    decreases r
  {
    if r > 0 {
      MulStep(r, c);
      var m := Reshape(v, r, c);
      assert m[1..] == Reshape(v[c..], r - 1, c);
      FlattenReshape(v[c..], r - 1, c);
      assert v == v[..c] + v[c..];
    }
  }

  /** Flattening an `r`x`c` matrix and reshaping it to `r`x`c` gives back the matrix. */
  lemma ReshapeFlatten(m: Matrix, r: nat, c: nat)
    requires IsShape(m, r, c)
    ensures |Flatten(m)| == r * c
    ensures Reshape(Flatten(m), r, c) == m
  {
    FlattenLength(m, r, c);
    var back := Reshape(Flatten(m), r, c);
    forall i, j | 0 <= i < r && 0 <= j < c
      ensures back[i][j] == m[i][j]
    {
      ReshapeEntry(Flatten(m), r, c, i, j);
      FlattenEntry(m, r, c, i, j);
    }
    Extensionality(back, m, r, c);
  }
}

=== FILE: network.dfy ===
/**
  `forward_backward_prop` for the two-layer sigmoid/softmax network.

  The batch computation follows the matrix code: `hidden = sigmoid(X W1 + b1)`,
  `logits = softmax(hidden W2 + b2)`, `cost = -sum(labels * log(logits))`,
  then `dcost = logits - labels`, `gradW2 = hidden^T dcost`,
  `gradb2 = colsum(dcost)`, `dH = (dcost W2^T) * sigmoid_grad(hidden)`,
  `gradW1 = X^T dH`, `gradb1 = colsum(dH)`, and the gradient blocks are
  packed in parameter order.

  Alongside it sits a reference model of ONE training example, written
  with the textbook per-coordinate formulas.  The batch code is proved to
  compute, row by row, what the reference computes for that row, and its
  cost and gradient are proved to be the SUM (not the mean) of the
  per-example costs and gradients.
*/
module Network {
  import opened Matrices
  import opened Layout

  /**
    The activation functions the network imports, left uninterpreted:
    `sigmoid`, `sigmoidGrad` (applied to the activation, not the
    pre-activation) and `log` act entry by entry; `softmax(z, k)` is entry
    `k` of the softmax of the row of scores `z`.
  */
  datatype Primitives = Primitives(
    sigmoid: real -> real,
    sigmoidGrad: real -> real,
    softmax: (Vector, nat) -> real,
    log: real -> real)

  function SoftmaxRow(prims: Primitives, z: Vector): (y: Vector)
    ensures |y| == |z|
  {
    seq(|z|, k requires 0 <= k < |z| => prims.softmax(z, k))
  }

  /** Row-wise softmax: keeps the shape, each row is the softmax of the same row. */
  function Softmax(prims: Primitives, m: Matrix): (s: Matrix)
    ensures |s| == |m|
    ensures forall i :: 0 <= i < |m| ==> s[i] == SoftmaxRow(prims, m[i])
  {
    seq(|m|, i requires 0 <= i < |m| => SoftmaxRow(prims, m[i]))
  }

  // ---------------------------------------------------------------------
  // Reference model: one example `x` (length Dx) with label row `y` (length Dy)

  /** `h[j] = sigmoid(sum_k x[k] W1[k][j] + b1[j])` */
  function ExampleHidden(x: Vector, p: Params, d: Dims, prims: Primitives): (h: Vector)
    requires WellShaped(p, d) && |x| == d.dx
    ensures |h| == d.h
  {
    seq(d.h, j requires 0 <= j < d.h => prims.sigmoid(Dot(x, Column(p.w1, j)) + p.b1[0][j]))
  }

  /** `yhat = softmax(z)` with `z[k] = sum_j h[j] W2[j][k] + b2[k]` */
  function ExampleLogits(x: Vector, p: Params, d: Dims, prims: Primitives): (yhat: Vector)
    requires WellShaped(p, d) && |x| == d.dx
    ensures |yhat| == d.dy
  {
    var h := ExampleHidden(x, p, d, prims);
    SoftmaxRow(prims, seq(d.dy, k requires 0 <= k < d.dy => Dot(h, Column(p.w2, k)) + p.b2[0][k]))
  }

  /** `-sum_k y[k] log(yhat[k])` */
  function ExampleCost(x: Vector, y: Vector, p: Params, d: Dims, prims: Primitives): real
    requires WellShaped(p, d) && |x| == d.dx && |y| == d.dy
  {
    var yhat := ExampleLogits(x, p, d, prims);
    -Sum(seq(d.dy, k requires 0 <= k < d.dy => y[k] * prims.log(yhat[k])))
  }

  /** `delta2[k] = yhat[k] - y[k]` */
  function ExampleDCost(x: Vector, y: Vector, p: Params, d: Dims, prims: Primitives): (delta: Vector)
    requires WellShaped(p, d) && |x| == d.dx && |y| == d.dy
    ensures |delta| == d.dy
  {
    var yhat := ExampleLogits(x, p, d, prims);
    seq(d.dy, k requires 0 <= k < d.dy => yhat[k] - y[k])
  }

  /** `delta1[j] = (sum_k delta2[k] W2[j][k]) * sigmoid_grad(h[j])` */
  function ExampleDHidden(x: Vector, y: Vector, p: Params, d: Dims, prims: Primitives): (delta: Vector)
    requires WellShaped(p, d) && |x| == d.dx && |y| == d.dy
    ensures |delta| == d.h
  {
    var h := ExampleHidden(x, p, d, prims);
    var delta2 := ExampleDCost(x, y, p, d, prims);
    seq(d.h, j requires 0 <= j < d.h => Dot(delta2, p.w2[j]) * prims.sigmoidGrad(h[j]))
  }

  /** The gradient for one example: `x delta1^T`, `delta1`, `h delta2^T`, `delta2`. */
  function ExampleGradient(x: Vector, y: Vector, p: Params, d: Dims, prims: Primitives): (g: Params)
    requires WellShaped(p, d) && |x| == d.dx && |y| == d.dy
    ensures WellShaped(g, d)
  {
    var delta1 := ExampleDHidden(x, y, p, d, prims);
    var delta2 := ExampleDCost(x, y, p, d, prims);
    Params(Outer(x, delta1), [delta1], Outer(ExampleHidden(x, p, d, prims), delta2), [delta2])
  }

  function ZeroParams(d: Dims): (z: Params)
    ensures WellShaped(z, d)
  {
    Params(ZeroMatrix(d.dx, d.h), ZeroMatrix(1, d.h), ZeroMatrix(d.h, d.dy), ZeroMatrix(1, d.dy))
  }

  function AddParams(g: Params, g': Params, d: Dims): (s: Params)
    requires WellShaped(g, d) && WellShaped(g', d)
    ensures WellShaped(s, d)
  {
    Params(Add(g.w1, g'.w1, d.dx, d.h), Add(g.b1, g'.b1, 1, d.h),
           Add(g.w2, g'.w2, d.h, d.dy), Add(g.b2, g'.b2, 1, d.dy))
  }

  /** The batch inputs: `X` is `M` x `Dx` and `labels` is `M` x `Dy`, for `M = |X|`. */
  predicate Inputs(x: Matrix, labels: Matrix, p: Params, d: Dims) {
    WellShaped(p, d) && IsShape(x, |x|, d.dx) && IsShape(labels, |x|, d.dy)
  }

  /** The per-example gradients of every row, summed. */
  function ExampleSum(x: Matrix, labels: Matrix, p: Params, d: Dims, prims: Primitives): (g: Params)
    requires Inputs(x, labels, p, d)
    ensures WellShaped(g, d)
    decreases |x|
  {
    if |x| == 0 then ZeroParams(d)
    else AddParams(ExampleGradient(x[0], labels[0], p, d, prims),
                   ExampleSum(x[1..], labels[1..], p, d, prims), d)
  }

  /** The per-example costs of every row, summed. */
  function ExampleCostSum(x: Matrix, labels: Matrix, p: Params, d: Dims, prims: Primitives): real
    requires Inputs(x, labels, p, d)
    decreases |x|
  {
    if |x| == 0 then 0.0
    else ExampleCost(x[0], labels[0], p, d, prims) + ExampleCostSum(x[1..], labels[1..], p, d, prims)
  }

  // ---------------------------------------------------------------------
  // The batch computation

  /** `hidden = sigmoid(np.matmul(X, W1) + b1)`: `M` x `H`, row `i` the hidden layer of example `i`. */
  function Hidden(x: Matrix, p: Params, d: Dims, prims: Primitives): (hidden: Matrix)
    requires WellShaped(p, d) && IsShape(x, |x|, d.dx)
    ensures IsShape(hidden, |x|, d.h)
    ensures forall i :: 0 <= i < |x| ==> hidden[i] == ExampleHidden(x[i], p, d, prims)
  {
    var z := AddRow(MatMul(x, p.w1, |x|, d.dx, d.h), p.b1[0]);
    var hidden := MapEntries(z, prims.sigmoid);
    assert forall i :: 0 <= i < |x| ==> hidden[i] == ExampleHidden(x[i], p, d, prims) by {
      forall i | 0 <= i < |x|
        ensures hidden[i] == ExampleHidden(x[i], p, d, prims)
      {
        assert hidden[i] == VMap(z[i], prims.sigmoid);
      }
    }
    hidden
  }

  /** `logits = softmax(np.matmul(hidden, W2) + b2)`: `M` x `Dy`, row `i` the prediction for example `i`. */
  function Logits(x: Matrix, p: Params, d: Dims, prims: Primitives): (logits: Matrix)
    requires WellShaped(p, d) && IsShape(x, |x|, d.dx)
    ensures IsShape(logits, |x|, d.dy)
    ensures forall i :: 0 <= i < |x| ==> logits[i] == ExampleLogits(x[i], p, d, prims)
  {
    var hidden := Hidden(x, p, d, prims);
    var z := AddRow(MatMul(hidden, p.w2, |x|, d.h, d.dy), p.b2[0]);
    var logits := Softmax(prims, z);
    assert forall i :: 0 <= i < |x| ==> logits[i] == ExampleLogits(x[i], p, d, prims) by {
      forall i | 0 <= i < |x|
        ensures logits[i] == ExampleLogits(x[i], p, d, prims)
      {
        var h := ExampleHidden(x[i], p, d, prims);
        assert z[i] == seq(d.dy, k requires 0 <= k < d.dy => Dot(h, Column(p.w2, k)) + p.b2[0][k]);
      }
    }
    logits
  }

  /** The entries of `labels * np.log(logits)`; row `i` holds example `i`'s terms. */
  function CostTerms(x: Matrix, labels: Matrix, p: Params, d: Dims, prims: Primitives): (t: Matrix)
    requires Inputs(x, labels, p, d)
    ensures |t| == |x|
    ensures forall i :: 0 <= i < |x| ==>
      t[i] == VMul(labels[i], VMap(ExampleLogits(x[i], p, d, prims), prims.log))
  {
    var logits := Logits(x, p, d, prims);
    Hadamard(labels, MapEntries(logits, prims.log), |x|, d.dy)
  }

  /**
    `cost = -np.sum(labels * np.log(logits))`: the SUM, not the mean, over
    the examples of the per-example cross-entropy.
  */
  function Cost(x: Matrix, labels: Matrix, p: Params, d: Dims, prims: Primitives): (cost: real)
    requires Inputs(x, labels, p, d)
    ensures cost == ExampleCostSum(x, labels, p, d, prims)
  {
    CostTermsSum(x, labels, p, d, prims);
    -Total(CostTerms(x, labels, p, d, prims))
  }

  /** The cost terms of a batch total the first example's cost plus the total of the rest. */
  lemma CostTermsStep(x: Matrix, labels: Matrix, p: Params, d: Dims, prims: Primitives)
    requires Inputs(x, labels, p, d) && |x| > 0
    ensures Inputs(x[1..], labels[1..], p, d)
    ensures -Total(CostTerms(x, labels, p, d, prims)) ==
      ExampleCost(x[0], labels[0], p, d, prims) + -Total(CostTerms(x[1..], labels[1..], p, d, prims))
  {
    assert Inputs(x[1..], labels[1..], p, d);
    var t := CostTerms(x, labels, p, d, prims);
    var t' := CostTerms(x[1..], labels[1..], p, d, prims);
    assert t[1..] == t' by {
      forall i | 0 <= i < |t'|
        ensures t[1..][i] == t'[i]
      {
        assert x[1..][i] == x[i + 1] && labels[1..][i] == labels[i + 1];
      }
    }
    var yhat := ExampleLogits(x[0], p, d, prims);
    var terms := seq(d.dy, k requires 0 <= k < d.dy => labels[0][k] * prims.log(yhat[k]));
    assert t[0] == VMul(labels[0], VMap(yhat, prims.log));
    assert forall k :: 0 <= k < d.dy ==> t[0][k] == terms[k];
    assert t[0] == terms;
    assert Total(t) == Sum(t[0]) + Total(t[1..]);
  }

  /** The cost terms of a batch total the per-example costs, summed over the rows. */
  lemma {:induction false} CostTermsSum(x: Matrix, labels: Matrix, p: Params, d: Dims, prims: Primitives)
    requires Inputs(x, labels, p, d)
    ensures -Total(CostTerms(x, labels, p, d, prims)) == ExampleCostSum(x, labels, p, d, prims)
    decreases |x|
  {
    if |x| > 0 {
      CostTermsStep(x, labels, p, d, prims);
      CostTermsSum(x[1..], labels[1..], p, d, prims);
    }
  }

  /** `dcost = logits - labels`: elementwise, `M` x `Dy`. */
  function DCost(x: Matrix, labels: Matrix, p: Params, d: Dims, prims: Primitives): (dcost: Matrix)
    requires Inputs(x, labels, p, d)
    ensures IsShape(dcost, |x|, d.dy)
    ensures forall i :: 0 <= i < |x| ==> dcost[i] == ExampleDCost(x[i], labels[i], p, d, prims)
  {
    Sub(Logits(x, p, d, prims), labels, |x|, d.dy)
  }

  /** A row times `W^T` is the row dotted with each row of `W`: the transpose needs no copy. */
  lemma TimesTranspose(u: Vector, w: Matrix, r: nat, c: nat)
    requires IsShape(w, r, c) && |u| == c
    ensures VecMat(u, Transpose(w, r, c), r) == seq(r, j requires 0 <= j < r => Dot(u, w[j]))
  {
    forall j | 0 <= j < r
      ensures Column(Transpose(w, r, c), j) == w[j]
    {
      ColumnOfTranspose(w, r, c, j);
    }
  }

  /** One row of `dH`: the row of `dcost` times `W2^T`, scaled entrywise by `sigmoid_grad` of the hidden row. */
  lemma BackRow(delta2: Vector, h: Vector, w2: Matrix, g: real -> real)
    requires IsShape(w2, |h|, |delta2|)
    ensures VMul(VecMat(delta2, Transpose(w2, |h|, |delta2|), |h|), VMap(h, g))
      == seq(|h|, j requires 0 <= j < |h| => Dot(delta2, w2[j]) * g(h[j]))
  {
    var back := VecMat(delta2, Transpose(w2, |h|, |delta2|), |h|);
    TimesTranspose(delta2, w2, |h|, |delta2|);
    var row := VMul(back, VMap(h, g));
    var want := seq(|h|, j requires 0 <= j < |h| => Dot(delta2, w2[j]) * g(h[j]));
    forall j | 0 <= j < |h|
      ensures row[j] == want[j]
    {
      assert back[j] == Dot(delta2, w2[j]);
      assert VMap(h, g)[j] == g(h[j]);
    }
    assert row == want;
  }

  /** `dH = np.matmul(dcost, W2.transpose()) * sigmoid_grad(hidden)`: `M` x `H`. */
  function DHidden(x: Matrix, labels: Matrix, p: Params, d: Dims, prims: Primitives): (dh: Matrix)
    requires Inputs(x, labels, p, d)
    ensures IsShape(dh, |x|, d.h)
    ensures forall i :: 0 <= i < |x| ==> dh[i] == ExampleDHidden(x[i], labels[i], p, d, prims)
  {
    var hidden := Hidden(x, p, d, prims);
    var dcost := DCost(x, labels, p, d, prims);
    var back := MatMul(dcost, Transpose(p.w2, d.h, d.dy), |x|, d.dy, d.h);
    var dh := Hadamard(back, MapEntries(hidden, prims.sigmoidGrad), |x|, d.h);
    assert forall i :: 0 <= i < |x| ==> dh[i] == ExampleDHidden(x[i], labels[i], p, d, prims) by {
      forall i | 0 <= i < |x|
        ensures dh[i] == ExampleDHidden(x[i], labels[i], p, d, prims)
      {
        assert back[i] == VecMat(dcost[i], Transpose(p.w2, d.h, d.dy), d.h);
        assert dh[i] == VMul(back[i], VMap(hidden[i], prims.sigmoidGrad));
        BackRow(dcost[i], hidden[i], p.w2, prims.sigmoidGrad);
      }
    }
    dh
  }

  /**
    The gradient blocks `gradW1`, `gradb1`, `gradW2` and `gradb2`.  Each
    has the shape of its parameter, the bias gradients are column SUMS over
    the batch, and the weight gradients sum, over the batch, the product of
    an input column and a delta column.
  */
  function Gradient(x: Matrix, labels: Matrix, p: Params, d: Dims, prims: Primitives): (g: Params)
    requires Inputs(x, labels, p, d)
    ensures WellShaped(g, d)
    ensures forall a, b :: 0 <= a < d.dx && 0 <= b < d.h ==>
      g.w1[a][b] == Dot(Column(x, a), Column(DHidden(x, labels, p, d, prims), b))
    ensures forall b :: 0 <= b < d.h ==> g.b1[0][b] == Sum(Column(DHidden(x, labels, p, d, prims), b))
    ensures forall a, b :: 0 <= a < d.h && 0 <= b < d.dy ==>
      g.w2[a][b] == Dot(Column(Hidden(x, p, d, prims), a), Column(DCost(x, labels, p, d, prims), b))
    ensures forall b :: 0 <= b < d.dy ==> g.b2[0][b] == Sum(Column(DCost(x, labels, p, d, prims), b))
  {
    var m := |x|;
    var hidden := Hidden(x, p, d, prims);
    var dcost := DCost(x, labels, p, d, prims);
    var dh := DHidden(x, labels, p, d, prims);
    var gradW2 := MatMul(Transpose(hidden, m, d.h), dcost, d.h, m, d.dy);
    var gradb2 := ColSum(dcost, d.dy);
    var gradW1 := MatMul(Transpose(x, m, d.dx), dh, d.dx, m, d.h);
    var gradb1 := ColSum(dh, d.h);
    Params(gradW1, gradb1, gradW2, gradb2)
  }

  datatype Output = Output(cost: real, grad: Vector)

  /**
    `forward_backward_prop(X, labels, params, dimensions)`.  It fails where
    the source raises: a parameter vector shorter than the layout fails in
    unpacking, an `X` without `Dx` columns in the first product, `labels`
    that are not `M` x `Dy` in the cost, and a parameter vector longer than
    the layout at the final `params.shape == grad.shape` check.  Otherwise
    the gradient has the length of `params` and unpacks, block for block,
    to the gradient of the parameter that `params` unpacks to.
  */
  function ForwardBackward(x: Matrix, labels: Matrix, params: Vector, d: Dims, prims: Primitives): (r: Result<Output>)
    ensures r.Success? <==>
      |params| == LayoutSize(d) && IsShape(x, |x|, d.dx) && IsShape(labels, |x|, d.dy)
    ensures |params| < LayoutSize(d) ==> r == Failure(Unpack(params, d).error)
    ensures LayoutSize(d) <= |params| && !IsShape(x, |x|, d.dx) ==> r == Failure(MatmulMismatch)
    ensures LayoutSize(d) <= |params| && IsShape(x, |x|, d.dx) && !IsShape(labels, |x|, d.dy) ==>
      r == Failure(BroadcastMismatch)
    ensures LayoutSize(d) < |params| && IsShape(x, |x|, d.dx) && IsShape(labels, |x|, d.dy) ==>
      r == Failure(GradientShapeMismatch)
    ensures r.Success? ==>
      && Unpack(params, d).Success?
      && Inputs(x, labels, Unpack(params, d).value, d)
      && |r.value.grad| == |params|
      && Unpack(r.value.grad, d) == Success(Gradient(x, labels, Unpack(params, d).value, d, prims))
      && r.value.cost == Cost(x, labels, Unpack(params, d).value, d, prims)
  {
    var p :- Unpack(params, d);
    if !IsShape(x, |x|, d.dx) then Failure(MatmulMismatch)
    else if !IsShape(labels, |x|, d.dy) then Failure(BroadcastMismatch)
    else
      var cost := Cost(x, labels, p, d, prims);
      var g := Gradient(x, labels, p, d, prims);
      var grad := Pack(g);
      PackLayout(g, d);
      UnpackPack(g, d);
      if |params| != |grad| then Failure(GradientShapeMismatch)
      else Success(Output(cost, grad))
  }

  // ---------------------------------------------------------------------
  // The batch is the sum of its examples

  /** Dropping the first example drops the first row of every intermediate. */
  lemma BatchTail(x: Matrix, labels: Matrix, p: Params, d: Dims, prims: Primitives)
    requires Inputs(x, labels, p, d) && |x| > 0
    ensures Inputs(x[1..], labels[1..], p, d)
    ensures Hidden(x, p, d, prims)[1..] == Hidden(x[1..], p, d, prims)
    ensures DCost(x, labels, p, d, prims)[1..] == DCost(x[1..], labels[1..], p, d, prims)
    ensures DHidden(x, labels, p, d, prims)[1..] == DHidden(x[1..], labels[1..], p, d, prims)
    ensures CostTerms(x, labels, p, d, prims)[1..] == CostTerms(x[1..], labels[1..], p, d, prims)
  {
    var x', labels' := x[1..], labels[1..];
    assert Inputs(x', labels', p, d);
    var hidden, hidden' := Hidden(x, p, d, prims), Hidden(x', p, d, prims);
    assert forall i :: 0 <= i < |x'| ==> hidden[1..][i] == hidden'[i];
    var dcost, dcost' := DCost(x, labels, p, d, prims), DCost(x', labels', p, d, prims);
    assert forall i :: 0 <= i < |x'| ==> dcost[1..][i] == dcost'[i];
    var dh, dh' := DHidden(x, labels, p, d, prims), DHidden(x', labels', p, d, prims);
    assert forall i :: 0 <= i < |x'| ==> dh[1..][i] == dh'[i];
    var t, t' := CostTerms(x, labels, p, d, prims), CostTerms(x', labels', p, d, prims);
    assert forall i :: 0 <= i < |x'| ==> t[1..][i] == t'[i];
  }

  lemma W1Step(x: Matrix, labels: Matrix, p: Params, d: Dims, prims: Primitives)
    requires Inputs(x, labels, p, d) && |x| > 0
    ensures Inputs(x[1..], labels[1..], p, d)
    ensures Gradient(x, labels, p, d, prims).w1 ==
      Add(ExampleGradient(x[0], labels[0], p, d, prims).w1, Gradient(x[1..], labels[1..], p, d, prims).w1, d.dx, d.h)
  {
    BatchTail(x, labels, p, d, prims);
    var dh := DHidden(x, labels, p, d, prims);
    assert dh[0] == ExampleDHidden(x[0], labels[0], p, d, prims);
    ProductStep(x, dh, d.dx, d.h);
  }

  lemma B1Step(x: Matrix, labels: Matrix, p: Params, d: Dims, prims: Primitives)
    requires Inputs(x, labels, p, d) && |x| > 0
    ensures Inputs(x[1..], labels[1..], p, d)
    ensures Gradient(x, labels, p, d, prims).b1 ==
      Add(ExampleGradient(x[0], labels[0], p, d, prims).b1, Gradient(x[1..], labels[1..], p, d, prims).b1, 1, d.h)
  {
    BatchTail(x, labels, p, d, prims);
    var dh := DHidden(x, labels, p, d, prims);
    assert dh[0] == ExampleDHidden(x[0], labels[0], p, d, prims);
    ColSumStep(dh, d.h);
  }

  lemma W2Step(x: Matrix, labels: Matrix, p: Params, d: Dims, prims: Primitives)
    requires Inputs(x, labels, p, d) && |x| > 0
    ensures Inputs(x[1..], labels[1..], p, d)
    ensures Gradient(x, labels, p, d, prims).w2 ==
      Add(ExampleGradient(x[0], labels[0], p, d, prims).w2, Gradient(x[1..], labels[1..], p, d, prims).w2, d.h, d.dy)
  {
    BatchTail(x, labels, p, d, prims);
    var hidden := Hidden(x, p, d, prims);
    var dcost := DCost(x, labels, p, d, prims);
    assert hidden[0] == ExampleHidden(x[0], p, d, prims);
    assert dcost[0] == ExampleDCost(x[0], labels[0], p, d, prims);
    ProductStep(hidden, dcost, d.h, d.dy);
  }

  lemma B2Step(x: Matrix, labels: Matrix, p: Params, d: Dims, prims: Primitives)
    requires Inputs(x, labels, p, d) && |x| > 0
    ensures Inputs(x[1..], labels[1..], p, d)
    ensures Gradient(x, labels, p, d, prims).b2 ==
      Add(ExampleGradient(x[0], labels[0], p, d, prims).b2, Gradient(x[1..], labels[1..], p, d, prims).b2, 1, d.dy)
  {
    BatchTail(x, labels, p, d, prims);
    var dcost := DCost(x, labels, p, d, prims);
    assert dcost[0] == ExampleDCost(x[0], labels[0], p, d, prims);
    ColSumStep(dcost, d.dy);
  }

  /** The gradient of a batch is the first example's gradient plus the gradient of the rest. */
  lemma GradientStep(x: Matrix, labels: Matrix, p: Params, d: Dims, prims: Primitives)
    requires Inputs(x, labels, p, d) && |x| > 0
    ensures Inputs(x[1..], labels[1..], p, d)
    ensures Gradient(x, labels, p, d, prims) ==
      AddParams(ExampleGradient(x[0], labels[0], p, d, prims), Gradient(x[1..], labels[1..], p, d, prims), d)
  {
    W1Step(x, labels, p, d, prims);
    B1Step(x, labels, p, d, prims);
    W2Step(x, labels, p, d, prims);
    B2Step(x, labels, p, d, prims);
  }

  /** An empty batch has a zero gradient. */
  lemma GradientOfEmptyBatch(x: Matrix, labels: Matrix, p: Params, d: Dims, prims: Primitives)
    requires Inputs(x, labels, p, d) && |x| == 0
    ensures Gradient(x, labels, p, d, prims) == ZeroParams(d)
  {
    var g := Gradient(x, labels, p, d, prims);
    var z := ZeroParams(d);
    Extensionality(g.w1, z.w1, d.dx, d.h);
    Extensionality(g.b1, z.b1, 1, d.h);
    Extensionality(g.w2, z.w2, d.h, d.dy);
    Extensionality(g.b2, z.b2, 1, d.dy);
  }

  /**
    The batch gradient is the SUM over the examples of the per-example
    gradient: no averaging over the batch size.
  */
  lemma {:induction false} GradientIsSumOfExamples(x: Matrix, labels: Matrix, p: Params, d: Dims, prims: Primitives)
    requires Inputs(x, labels, p, d)
    ensures Gradient(x, labels, p, d, prims) == ExampleSum(x, labels, p, d, prims)
    decreases |x|
  {
    if |x| == 0 {
      GradientOfEmptyBatch(x, labels, p, d, prims);
    } else {
      GradientStep(x, labels, p, d, prims);
      GradientIsSumOfExamples(x[1..], labels[1..], p, d, prims);
    }
  }

  /** A batch of one example gets exactly the per-example cost and gradient: `M = 1` is not special. */
  lemma SingleExampleBatch(x: Vector, y: Vector, p: Params, d: Dims, prims: Primitives)
    requires WellShaped(p, d) && |x| == d.dx && |y| == d.dy
    ensures Inputs([x], [y], p, d)
    ensures Gradient([x], [y], p, d, prims) == ExampleGradient(x, y, p, d, prims)
    ensures Cost([x], [y], p, d, prims) == ExampleCost(x, y, p, d, prims)
  {
    assert Inputs([x], [y], p, d);
    GradientIsSumOfExamples([x], [y], p, d, prims);
    var e := ExampleGradient(x, y, p, d, prims);
    assert [x][1..] == [] && [y][1..] == [];
    assert ExampleCostSum([x][1..], [y][1..], p, d, prims) == 0.0;
    var z := ExampleSum([x][1..], [y][1..], p, d, prims);
    assert z == ZeroParams(d);
    AddZero(e.w1, d.dx, d.h);
    AddZero(e.b1, 1, d.h);
    AddZero(e.w2, d.h, d.dy);
    AddZero(e.b2, 1, d.dy);
  }

  /** The label row with a 1 at class `k` and 0 elsewhere. */
  function OneHot(n: nat, k: nat): (y: Vector)
    requires k < n
    ensures |y| == n
  {
    seq(n, j requires 0 <= j < n => if j == k then 1.0 else 0.0)
  }

  /** With a one-hot label, an example's cost is minus the log of the probability of its class. */
  lemma ExampleCostOneHot(x: Vector, k: nat, p: Params, d: Dims, prims: Primitives)
    requires WellShaped(p, d) && |x| == d.dx && k < d.dy
    ensures ExampleCost(x, OneHot(d.dy, k), p, d, prims) == -prims.log(ExampleLogits(x, p, d, prims)[k])
  {
    var y := OneHot(d.dy, k);
    var yhat := ExampleLogits(x, p, d, prims);
    var terms := seq(d.dy, j requires 0 <= j < d.dy => y[j] * prims.log(yhat[j]));
    SumSingle(terms, k);
  }

  /** Label rows for the given classes, one one-hot row per example. */
  function OneHotLabels(n: nat, classes: seq<nat>): (labels: Matrix)
    requires forall i :: 0 <= i < |classes| ==> classes[i] < n
    ensures IsShape(labels, |classes|, n)
  {
    seq(|classes|, i requires 0 <= i < |classes| => OneHot(n, classes[i]))
  }

  /** `-sum_i log(yhat_i[class_i])`: the negative log-likelihood of the true classes. */
  function NegLogLikelihood(x: Matrix, classes: seq<nat>, p: Params, d: Dims, prims: Primitives): real
    requires WellShaped(p, d) && IsShape(x, |x|, d.dx) && |classes| == |x|
    requires forall i :: 0 <= i < |classes| ==> classes[i] < d.dy
    decreases |x|
  {
    if |x| == 0 then 0.0
    else
      var first := -prims.log(ExampleLogits(x[0], p, d, prims)[classes[0]]);
      first + NegLogLikelihood(x[1..], classes[1..], p, d, prims)
  }

  /** With one-hot labels, the cost is the negative log-likelihood of the labelled classes. */
  lemma CostOfOneHotLabels(x: Matrix, classes: seq<nat>, p: Params, d: Dims, prims: Primitives)
    requires WellShaped(p, d) && IsShape(x, |x|, d.dx) && |classes| == |x|
    requires forall i :: 0 <= i < |classes| ==> classes[i] < d.dy
    ensures Inputs(x, OneHotLabels(d.dy, classes), p, d)
    ensures Cost(x, OneHotLabels(d.dy, classes), p, d, prims) == NegLogLikelihood(x, classes, p, d, prims)
  {
    ExampleCostSumOfOneHot(x, classes, p, d, prims);
  }

  lemma {:induction false} ExampleCostSumOfOneHot(x: Matrix, classes: seq<nat>, p: Params, d: Dims, prims: Primitives)
    requires WellShaped(p, d) && IsShape(x, |x|, d.dx) && |classes| == |x|
    requires forall i :: 0 <= i < |classes| ==> classes[i] < d.dy
    ensures Inputs(x, OneHotLabels(d.dy, classes), p, d)
    ensures ExampleCostSum(x, OneHotLabels(d.dy, classes), p, d, prims) == NegLogLikelihood(x, classes, p, d, prims)
    decreases |x|
  {
    if |x| > 0 {
      var labels := OneHotLabels(d.dy, classes);
      assert labels[1..] == OneHotLabels(d.dy, classes[1..]);
      ExampleCostOneHot(x[0], classes[0], p, d, prims);
      ExampleCostSumOfOneHot(x[1..], classes[1..], p, d, prims);
    }
  }

  /**
    What `forward_backward_prop` returns, read through the reference model:
    the cost is the sum of the per-example costs, and the gradient vector
    unpacks to the sum of the per-example gradients.
  */
  lemma ForwardBackwardSumsExamples(x: Matrix, labels: Matrix, params: Vector, d: Dims, prims: Primitives)
    requires ForwardBackward(x, labels, params, d, prims).Success?
    ensures Unpack(params, d).Success?
    ensures Inputs(x, labels, Unpack(params, d).value, d)
    ensures ForwardBackward(x, labels, params, d, prims).value.cost ==
      ExampleCostSum(x, labels, Unpack(params, d).value, d, prims)
    ensures Unpack(ForwardBackward(x, labels, params, d, prims).value.grad, d) ==
      Success(ExampleSum(x, labels, Unpack(params, d).value, d, prims))
  {
    var p := Unpack(params, d).value;
    GradientIsSumOfExamples(x, labels, p, d, prims);
  }
}

=== FILE: sanity.dfy ===
/**
  The fixed configuration of `sanity_check`: 20 examples, dimensions
  `[10, 5, 10]`, one-hot labels at randomly drawn classes, and a parameter
  vector sized by `(Dx + 1) * H + (H + 1) * Dy`.  The random draws become
  parameters: `data`, `classes` and `params` are arbitrary.
*/
module Sanity {
  import opened Matrices
  import opened Layout
  import opened Network

  const Examples: nat := 20
  const SanityDims: Dims := Dims(10, 5, 10)

  /** The parameter count `sanity_check` allocates: one weight row plus a bias row per layer. */
  function ParamCount(d: Dims): (n: nat)
    ensures n == LayoutSize(d)
  {
    (d.dx + 1) * d.h + (d.h + 1) * d.dy
  }

  /**
    `labels = np.zeros((N, Dy))`, then `labels[i, class_i] = 1` for each row,
    with the drawn classes passed in.
  */
  method MakeLabels(n: nat, dy: nat, classes: seq<nat>) returns (labels: Matrix)
    requires |classes| == n
    requires forall i :: 0 <= i < n ==> classes[i] < dy
    ensures IsShape(labels, n, dy)
    ensures labels == OneHotLabels(dy, classes)
  {
    labels := seq(n, i => Zeros(dy));
    var i := 0;
    while i < n
      invariant 0 <= i <= n
      invariant |labels| == n
      invariant forall k :: 0 <= k < i ==> labels[k] == OneHot(dy, classes[k])
      invariant forall k :: i <= k < n ==> labels[k] == Zeros(dy)
    {
      var row := labels[i][classes[i] := 1.0];
      assert row == OneHot(dy, classes[i]);
      labels := labels[i := row];
      i := i + 1;
    }
  }

  /**
    The sanity check's configuration is accepted: 115 parameters, and the
    gradient comes back with 115 entries, whatever the drawn data, classes
    and parameters; its cost is the negative log-likelihood of the drawn
    classes.
  */
  lemma SanityCheck(data: Matrix, classes: seq<nat>, params: Vector, prims: Primitives)
    requires IsShape(data, Examples, SanityDims.dx)
    requires |classes| == Examples
    requires forall i :: 0 <= i < Examples ==> classes[i] < SanityDims.dy
    requires |params| == ParamCount(SanityDims)
    ensures |params| == 115
    ensures ForwardBackward(data, OneHotLabels(SanityDims.dy, classes), params, SanityDims, prims).Success?
    ensures |ForwardBackward(data, OneHotLabels(SanityDims.dy, classes), params, SanityDims, prims).value.grad| == 115
    ensures Unpack(params, SanityDims).Success?
    ensures ForwardBackward(data, OneHotLabels(SanityDims.dy, classes), params, SanityDims, prims).value.cost ==
      NegLogLikelihood(data, classes, Unpack(params, SanityDims).value, SanityDims, prims)
  {
    var p := Unpack(params, SanityDims).value;
    CostOfOneHotLabels(data, classes, p, SanityDims, prims);
  }
}
